=== FILE: README.md ===
# LAMMPS input-data parser, modelled in Dafny

This project models `src/lid_functions.py`, the reader for LAMMPS input data
("Lid") files. A Lid file is a header followed by sections. The header holds
count lines such as `2 atoms`, type-count lines such as `1 atom types`, and
box lines such as `0.0 10.0 xlo xhi`. Each section opens with a line whose
first token is `Masses`, `Atoms`, `Bonds`, `Angles`, `Dihedrals` or
`Impropers`. The model covers the three parts of the reader:

- **the header reader** (`lid_header`, module `Header`). It scans the lines
  in order, tokenizes each one, and sends it to the first branch it matches:
  count line, type-count line, box line, or section keyword. The section
  keyword ends the scan. The result is three fixed-size lists whose slots
  hold either the integer 0 or a raw token (`Slot = Zero | Tok`). A box line
  whose third token is `zhi` writes one slot past the end of the box list.
  The source raises `IndexError` there, and the model returns
  `Failure(IndexError)`.
- **the section locator** (`parse_lid`, module `Locator`). It walks every
  line with a zero-based counter. For each keyword it records the counter of
  the *last* line that opens it, as an `[offset, 0]` pair (`Entry`). A
  missing keyword is recorded as 0.
- **the six section extractors** (`masses` … `impropers`, module
  `Extractor`). They are six copies of one algorithm, modelled once as
  `Extract(lines, k)` and exposed as `Masses` … `Impropers`. The algorithm
  computes the bounds of the slice `readlines()[start:stop]` from the
  locator's table, as the source does:
  - `[-1:-1]` for an absent section;
  - an open-ended slice for the entry equal to `max(in_data)`;
  - otherwise a stop at the entry that `stop.index(min(stop))` selects, with
    the sentinel `5000000000000` assigned to entries at or before the section.

  It then tokenizes the sliced lines and drops the blank ones.

The rest of the model supports these three parts:

- `Tokens.Split` is Python's `str.split()` with no argument. The separators
  are Python's whitespace characters.
- `Builtins` holds the list built-ins the code relies on: `list.index`,
  `min`, and slicing with negative or missing bounds.
- `LidFormat` holds the fixed keyword and label lists.

The file is an input `lines: seq<string>`, the result of `readlines()`. The
line terminators that `readlines()` keeps are whitespace to `Split`, so they
change nothing.

Each extractor is tied to an independent reference definition of a section
body. The body is the non-blank lines strictly between the section's keyword
line and the next line that is the last occurrence of some keyword (or the
end of the file), tokenized (`IsSectionBody`, `NextLastOccurrence`). The
locator is tied to a per-line characterisation (`LastHead`, `LastOccurrence`).
The header is tied to a "last write before the stop line" characterisation
(`LastWrite`, `StopIndex`).

Three consequences of the code that are easy to misread:

- A keyword that opens several lines is recorded at its *last* line: the
  assignments in the `elif` chain (src/lid_functions.py:126-142) are not
  guarded, so every later match overwrites the earlier one. `Locate` states
  the last-occurrence rule.
- An absent section gives an empty list, not `None`: the `None` assigned at
  src/lid_functions.py:175 is replaced at line 202 by the list built from the
  empty slice `[-1:-1]`. The model returns `[]`.
- In a file of at most 5000000000000 lines, a present section that is not
  the last one always has a later recorded offset, so the sentinel is never
  the minimum distance (`SliceBoundsNextSection`).

## Model

| member | source | states |
|---|---|---|
| Builtins.IndexOf | src/lid_functions.py:68 | `list.index` returns a position holding the value, and no earlier position holds it |
| Builtins.MinOf | src/lid_functions.py:194 | `min` returns an element of the list that no element is below |
| Builtins.SliceIndex | src/lid_functions.py:199 | a negative bound counts from the end; a bound past the end becomes the length, and one before the start becomes 0 |
| Builtins.PySliceCases | src/lid_functions.py:199 | `s[a:a]` is empty; `s[a:None]` is the suffix from `a`; an in-range `s[a:b]` is the run from `a` to `b`; a stop at or before the start gives an empty slice |
| Tokens.SplitGivesWords | src/lid_functions.py:65 | every token `str.split()` produces is non-empty and has no whitespace |
| Tokens.SplitBlank | src/lid_functions.py:206 | a line splits into `[]` exactly when it is all whitespace, so `line != []` keeps exactly the non-blank lines |
| Tokens.SplitKeepsText | src/lid_functions.py:124 | the tokens, concatenated, are the line's non-whitespace characters in their original order |
| Tokens.SplitAtSpace | src/lid_functions.py:124 | a whitespace character separates tokens: a line split at any whitespace character gives the tokens before it followed by the tokens after it |
| Tokens.SplitJoin | src/lid_functions.py:124 | splitting undoes `" ".join` for any list of tokens |
| LidFormat.KeywordOfSections | src/lid_functions.py:126-142 | a tokenized line opens a section exactly when its first token equals one of the six keywords, and the table position found is that keyword's |
| Locator.LastHead | src/lid_functions.py:126-144 | the recorded position opens the section or is 0, and no later position opens it |
| Locator.Locate | src/lid_functions.py:114-147 | six entries, each with second element 0; a non-zero entry is a line of the file that opens its section, with no later line opening it; a zero entry means no line after line 0 opens it |
| Locator.ParseLid | src/lid_functions.py:121-147 | the counter loop with the `elif` chain computes exactly `Locate` |
| Locator.TableSnoc | src/lid_functions.py:123-144 | reading one more line overwrites at most the entry of the section it opens, with that line's counter |
| Locator.LocateEntriesDistinct | src/lid_functions.py:126-142 | two different sections never share a non-zero offset |
| Locator.TableRecordsLastOccurrences | src/lid_functions.py:123-144 | a position after 0 is a recorded offset exactly when it holds the last occurrence of its keyword, and it is then recorded under that keyword |
| Locator.RecordedIffLastHead | src/lid_functions.py:123-144 | a line after line 0 is some section's offset exactly when it is the last line opening its section |
| Header.Classify | src/lid_functions.py:67-78 | the branch taken: count line, type-count line, box line or section keyword, each only when every earlier test failed; the slot is the label's position and the stored tokens are the ones the branch reads |
| Header.Apply | src/lid_functions.py:67-75 | one loop pass writes exactly the slots the line's branch names, keeps every other slot, and fails exactly on a box line with the last label |
| Header.HeaderLine | src/lid_functions.py:65-78 | the loop body, statement by statement, leaves the loop exactly on a section keyword and otherwise performs `Apply` |
| Header.LidHeader | src/lid_functions.py:52-80 | the loop over the lines computes the scan `ReadHeader` |
| Header.ScanStopsAtSection | src/lid_functions.py:77-78 | nothing at or after the first section keyword affects the scan |
| Header.HeaderStopsAtSection | src/lid_functions.py:64-78 | the header of a file is the header of its lines before the stop line |
| Header.HeaderIgnoresRest | src/lid_functions.py:64-78 | two files that agree up to the stop line have the same stop line and the same header |
| Header.ScanFailsOnOverflow | src/lid_functions.py:73-75 | the scan raises exactly when a box line with the last label comes before the first section keyword |
| Header.HeaderFailsOnOverflow | src/lid_functions.py:73-75 | `lid_header` raises its index error exactly when such a box line comes before the stop line |
| Header.OverflowIsZhi | src/lid_functions.py:59-75 | the overflowing box line is exactly the one whose third token is `zhi` |
| Header.ScanSlots | src/lid_functions.py:60-75 | each slot ends as the token of the last line before the stop that writes it, or keeps its starting value |
| Header.HeaderSlotsAreLastWrites | src/lid_functions.py:60-75 | each slot of the result is the token of the last header line that writes it, or 0 when none does |
| Header.LastWrite | src/lid_functions.py:64-75 | reference definition: no value exactly when no line writes the slot; otherwise the value of a line that writes it with no later line writing it |
| Extractor.MaxEntry | src/lid_functions.py:179 | `max(in_data)` is an entry of the table that no entry exceeds in Python's list order |
| Extractor.SliceBoundsNextSection | src/lid_functions.py:172-196 | an absent section gets `[-1:-1]`; a present one starts after its keyword line; the largest offset gives an open stop; otherwise the stop is a recorded offset, the smallest one after the section's own, inside the file, and the sentinel is never the minimum |
| Extractor.NextLastOccurrence | src/lid_functions.py:183-196 | reference definition of where a body ends: the first position from `from` holding the last occurrence of a keyword, or the end |
| Extractor.RecordedSliceBounds | src/lid_functions.py:179-196 | for a present section, `start` is the line after the keyword and `stop` is the next last occurrence of any keyword, or the end of the file |
| Extractor.PresentSectionSlice | src/lid_functions.py:179-200 | the slice a present section reads is the lines from after its keyword line to the end of its body |
| Extractor.Rows | src/lid_functions.py:202-207 | at most one row per line, and no row is empty |
| Extractor.RowsComeFromLines | src/lid_functions.py:202-207 | every row is the tokenization of one of the sliced lines |
| Extractor.LinesReachRows | src/lid_functions.py:202-207 | every non-blank sliced line contributes its tokens as a row |
| Extractor.RowsAppend | src/lid_functions.py:202-207 | tokenizing and dropping blank lines commutes with joining two runs of lines |
| Extractor.ExtractIsSectionBody | src/lid_functions.py:168-209 | the extractor returns `[]` for an absent section and otherwise exactly the section body of the reference definition |
| Extractor.Masses | src/lid_functions.py:150-209 | `masses` returns the body of section 0 |
| Extractor.Atoms | src/lid_functions.py:212-273 | `atoms` returns the body of section 1 |
| Extractor.Bonds | src/lid_functions.py:276-336 | `bonds` returns the body of section 2 |
| Extractor.Angles | src/lid_functions.py:339-399 | `angles` returns the body of section 3 |
| Extractor.Dihedrals | src/lid_functions.py:402-462 | `dihedrals` returns the body of section 4 |
| Extractor.Impropers | src/lid_functions.py:465-525 | `impropers` returns the body of section 5 |
| Extractor.LastSectionRunsToEnd | src/lid_functions.py:179-181 | the section holding the largest offset returns the rows of every line after its keyword line |
| Extractor.LastLinesPlain | src/lid_functions.py:179-181 | no row after the largest offset opens a section, so the last section's body holds no keyword line |
| Extractor.BodyKeywordsReopenLater | src/lid_functions.py:126-142 | a keyword line inside a section body belongs to a section opened again at or after the end of that body: under last-match-wins it is read as data |
| Extractor.SectionBlockRoundTrip | src/lid_functions.py:198-207 | re-reading the block from a present section's keyword line to the end of its body gives the keyword line's tokens followed by exactly the section body |
| Extractor.RowsAreWords | src/lid_functions.py:202-207 | every row is a non-empty list of whitespace-free, non-empty tokens |
| Extractor.RejoinRows | src/lid_functions.py:202-207 | writing such rows back out with `" ".join`, one per line, and reading them again gives the same rows |
| Extractor.ExtractRejoins | src/lid_functions.py:150-209 | writing an extracted section back out, one line per row, and extracting it again gives the same section |
| Extractor.CanonicalOffsets | src/lid_functions.py:121-147 | in a file whose six keywords each open exactly one line after the first, at increasing positions, the table holds those positions in order |

## Left out

- File access (`open`, `readlines`, `close`): the file is the parameter
  `lines`. The extractors re-read the file and call `parse_lid` again; the
  model passes the same `lines` to both.
- The `colorama` colouring and the `print` warnings for an absent section
  (src/lid_functions.py:25, 173-174 and the same lines in the other five
  extractors). They only write to the terminal and do not change any result.
- The exceptions of `open` (missing file, unreadable file). They come from
  I/O, which is not modelled.
- `list.index` raising `ValueError`: every call in the source is guarded by
  an `in` test or looks up a value taken from the same list, so `IndexOf`
  requires the value to be present.
- ExtractIsSectionBody: the body equality is stated only for files of at
  most 5000000000000 lines. In a longer file a real distance can equal or
  exceed the sentinel, and the sentinel entry can then be picked as the stop.
- Masses: same bound as `ExtractIsSectionBody`, for the same reason.
- Atoms: same bound as `ExtractIsSectionBody`, for the same reason.
- Bonds: same bound as `ExtractIsSectionBody`, for the same reason.
- Angles: same bound as `ExtractIsSectionBody`, for the same reason.
- Dihedrals: same bound as `ExtractIsSectionBody`, for the same reason.
- Impropers: same bound as `ExtractIsSectionBody`, for the same reason.
- SectionBlockRoundTrip: same bound, for the same reason.
- SliceBoundsNextSection: same bound as `ExtractIsSectionBody`, for the same reason.
- RecordedSliceBounds: same bound as `ExtractIsSectionBody`, for the same reason.
- PresentSectionSlice: same bound as `ExtractIsSectionBody`, for the same reason.
- Header values stay raw tokens, because the source never converts them to
  numbers. Nothing is left out here; it is noted because the lists look
  numeric.

=== FILE: builtins.dfy ===
/** The few Python list built-ins the parser relies on: `list.index`, `min`
    and slicing with possibly negative or missing bounds. */
module Builtins {
  import opened Wrappers

  /** `xs.index(x)`: the position of the first occurrence of `x`.  Python raises
      ValueError when `x` is missing; every call in the parser is guarded by an
      `in` test or looks up a value taken from the list itself. */
  function IndexOf<T(==)>(xs: seq<T>, x: T): (r: nat)
    requires x in xs
    ensures r < |xs| && xs[r] == x
    ensures forall j :: 0 <= j < r ==> xs[j] != x
  {
    if xs[0] == x then 0 else 1 + IndexOf(xs[1..], x)
  }

  /** `min(xs)` for a non-empty list of integers. */
  function MinOf(xs: seq<int>): (r: int)
    requires |xs| > 0
    ensures r in xs
    ensures forall i :: 0 <= i < |xs| ==> r <= xs[i]
  {
    if |xs| == 1 then xs[0]
    else
      var m := MinOf(xs[1..]);
      if xs[0] <= m then xs[0] else m
  }

  /** How Python normalises one slice bound against a list of length `n`:
      a negative bound counts from the end, and the result is clamped to [0, n]. */
  function SliceIndex(i: int, n: nat): (r: nat)
    ensures r <= n
    ensures 0 <= i <= n ==> r == i
    ensures i < 0 && 0 <= i + n ==> r == i + n
    ensures i > n ==> r == n
    ensures i + n < 0 ==> r == 0
  {
    if i < 0 then (if i + n < 0 then 0 else i + n)
    else if i > n then n
    else i
  }

  /** `s[start:stop]`, where a missing `stop` (Python's `None`) means the end. */
  function PySlice<T>(s: seq<T>, start: int, stop: Option<int>): seq<T> {
    var a := SliceIndex(start, |s|);
    var b := match stop
      case None => |s|
      case Some(e) => SliceIndex(e, |s|);
    if a < b then s[a..b] else []
  }

  /** What `s[start:stop]` is for the bounds the parser uses: empty when
      both bounds are equal or the stop does not lie after the start, the
      suffix from `start` when the stop is missing, and the run from `start`
      to `stop` when both lie within the list. */
  lemma PySliceCases<T>(s: seq<T>, start: int, stop: Option<int>)
    ensures stop == Some(start) ==> PySlice(s, start, stop) == []
    ensures 0 <= start <= |s| && stop.None? ==> PySlice(s, start, stop) == s[start..]
    ensures stop.Some? && 0 <= start <= stop.value <= |s| ==> PySlice(s, start, stop) == s[start..stop.value]
    ensures stop.Some? && 0 <= stop.value <= start ==> PySlice(s, start, stop) == []
  {
  }

  /** The prefix of length `n + 1` is the prefix of length `n` and one more
      element. */
  lemma {:induction false} PrefixSnoc<T>(s: seq<T>, n: nat)
    requires n < |s|
    ensures s[..n + 1] == s[..n] + [s[n]]
  {
  }

  /** A non-empty slice is its first element followed by the rest. */
  lemma {:induction false} SliceCons<T>(s: seq<T>, i: nat, e: nat)
    requires i < e <= |s|
    ensures s[i..e] == [s[i]] + s[i + 1..e]
  {
  }
}

=== FILE: extractor.dfy ===
/** The section extractor shared by `masses`, `atoms`, `bonds`, `angles`,
    `dihedrals` and `impropers`: the body of section `k` is the run of lines
    after its keyword line up to the next recorded section, tokenized, with
    blank lines dropped. */
module Extractor {
  import opened Wrappers
  import opened Builtins
  import opened Tokens
  import opened LidFormat
  import opened Locator

  /** The distance the extractor assigns to sections at or before the target. */
  const Sentinel: int := 5000000000000

  /** Python's ordering of two `[line, zero]` lists: lexicographic. */
  predicate PairLess(a: Entry, b: Entry) {
    a.line < b.line || (a.line == b.line && a.zero < b.zero)
  }

  /** `max(in_data)`: the first entry no other entry exceeds. */
  function MaxEntry(t: seq<Entry>): (m: Entry)
    requires |t| > 0
    ensures m in t
    ensures forall i :: 0 <= i < |t| ==> !PairLess(m, t[i])
  {
    if |t| == 1 then t[0]
    else
      var m := MaxEntry(t[..|t| - 1]);
      assert forall i :: 0 <= i < |t| - 1 ==> t[..|t| - 1][i] == t[i];
      if PairLess(m, t[|t| - 1]) then t[|t| - 1] else m
  }

  /** The value the extractor's inner loop appends for an entry at `line` when
      the target section starts at `off`. */
  function Distance(line: int, off: int): int {
    if line - off == 0 then Sentinel
    else if line - off < 0 then Sentinel
    else line - off
  }

  /** The list `stop` built by that loop, one value per table entry. */
  function Distances(t: seq<Entry>, off: int): (d: seq<int>)
    ensures |d| == |t|
    ensures forall i :: 0 <= i < |t| && t[i].line > off ==> d[i] == t[i].line - off
    ensures forall i :: 0 <= i < |t| && t[i].line <= off ==> d[i] == Sentinel
  {
    seq(|t|, i requires 0 <= i < |t| => Distance(t[i].line, off))
  }

  /** The arguments of the slice `readlines()[start:stop]`. */
  datatype Bounds = Bounds(start: int, stop: Option<int>)

  /** The slice bounds the extractor computes for section `k` from the
      locator's table: `[-1:-1]` for an absent section, an open-ended slice
      for the section with the largest offset, and otherwise up to the entry
      that `stop.index(min(stop))` selects. */
  function SliceBounds(t: seq<Entry>, k: nat): Bounds
    requires |t| == |Sections| && k < |t|
  {
    var off := t[k].line;
    if off == 0 then Bounds(-1, Some(-1))
    else if off == MaxEntry(t).line then Bounds(off + 1, None)
    else
      var d := Distances(t, off);
      var i := IndexOf(d, MinOf(d));
      Bounds(off + 1, Some(t[i].line))
  }

  /** A table of the shape the locator returns for a file of `n` lines. */
  ghost predicate TableShape(t: seq<Entry>, n: nat) {
    && |t| == |Sections|
    && forall i :: 0 <= i < |t| ==> t[i].zero == 0 && 0 <= t[i].line && (t[i].line == 0 || t[i].line < n)
  }

  /** Where the slice stops.  A present section that is not the last one
      stops at the smallest recorded offset after its own: that offset
      always exists, so the sentinel distance is never the minimum.  The
      section with the largest offset runs to the end of the file. */
  lemma {:induction false} SliceBoundsNextSection(t: seq<Entry>, k: nat, n: nat)
    requires TableShape(t, n) && n <= Sentinel && k < |t|
    ensures var b := SliceBounds(t, k); var off := t[k].line;
      && (off == 0 ==> b == Bounds(-1, Some(-1)))
      && (off != 0 ==> b.start == off + 1)
      && (off != 0 && (forall i :: 0 <= i < |t| ==> t[i].line <= off) ==> b.stop.None?)
      && (off != 0 && (exists i :: 0 <= i < |t| && t[i].line > off) ==>
            && b.stop.Some?
            && off < b.stop.value < n
            && (exists i :: 0 <= i < |t| && t[i].line == b.stop.value)
            && (forall i :: 0 <= i < |t| && t[i].line > off ==> b.stop.value <= t[i].line))
    ensures var off := t[k].line;
      off != 0 && off != MaxEntry(t).line ==> MinOf(Distances(t, off)) < Sentinel
  {
    var off := t[k].line;
    if off != 0 {
      var m := MaxEntry(t);
      assert forall i :: 0 <= i < |t| ==> t[i].line <= m.line;
      if off != m.line {
        var d := Distances(t, off);
        var mi :| 0 <= mi < |t| && t[mi] == m;
        assert d[mi] == m.line - off;
        var i := IndexOf(d, MinOf(d));
        assert d[i] < Sentinel;
        assert t[i].line == off + d[i];
        forall j | 0 <= j < |t| && t[j].line > off
          ensures t[i].line <= t[j].line
        {
          assert d[j] == t[j].line - off;
        }
      }
    }
  }

  /** The first position at or after `from` that holds the last occurrence
      of its keyword, or the end of the file: the reference definition of
      where a section body ends. */
  function NextLastOccurrence(hs: seq<Option<nat>>, from: nat): (e: nat)
    requires from <= |hs|
    ensures from <= e <= |hs|
    ensures forall j :: from <= j < e ==> !LastOccurrence(hs, j)
    ensures e < |hs| ==> LastOccurrence(hs, e)
    decreases |hs| - from
  {
    if from == |hs| || LastOccurrence(hs, from) then from
    else NextLastOccurrence(hs, from + 1)
  }

  /** `t` is a table of the locator's shape for the lookups `hs` whose
      non-zero offsets are exactly the positions after 0 holding the last
      occurrence of their keyword. */
  ghost predicate Records(hs: seq<Option<nat>>, t: seq<Entry>) {
    && TableShape(t, |hs|)
    && forall j :: 0 < j < |hs| ==>
         (LastOccurrence(hs, j) <==> exists k :: 0 <= k < |t| && t[k].line == j)
  }

  /** The locator's table records the last occurrences. */
  lemma {:induction false} TableRecords(hs: seq<Option<nat>>)
    requires forall i :: 0 <= i < |hs| && hs[i].Some? ==> hs[i].value < |Sections|
    ensures Records(hs, Table(hs))
  {
    forall j | 0 < j < |hs|
      ensures LastOccurrence(hs, j) <==> exists k :: 0 <= k < |Sections| && Table(hs)[k].line == j
    {
      TableRecordsLastOccurrences(hs, j);
    }
  }

  /** The same for the table of a file. */
  lemma {:induction false} LocateRecords(lines: seq<string>)
    ensures Records(HeadsOf(lines), Locate(lines))
  {
    assert Locate(lines) == Table(HeadsOf(lines));
    TableRecords(HeadsOf(lines));
  }

  /** When no recorded offset lies after `off`, no position after it holds
      the last occurrence of a keyword. */
  lemma {:induction false} NothingRecordedAfter(hs: seq<Option<nat>>, t: seq<Entry>, off: nat)
    requires Records(hs, t) && 0 < off < |hs|
    requires forall i :: 0 <= i < |t| ==> t[i].line <= off
    ensures NextLastOccurrence(hs, off + 1) == |hs|
  {
    forall j | off < j < |hs|
      ensures !LastOccurrence(hs, j)
    {
    }
  }

  /** The smallest recorded offset after `off` is the next last occurrence. */
  lemma {:induction false} NextRecordedAfter(hs: seq<Option<nat>>, t: seq<Entry>, off: nat, s: nat, i: nat)
    requires Records(hs, t)
    requires 0 < off < s < |hs| && i < |t| && t[i].line == s
    requires forall j :: 0 <= j < |t| && t[j].line > off ==> s <= t[j].line
    ensures NextLastOccurrence(hs, off + 1) == s
  {
    assert LastOccurrence(hs, s);
    forall j | off < j < s
      ensures !LastOccurrence(hs, j)
    {
    }
  }

  /** The slice bounds of a present section, on the per-line keyword
      lookups: the body starts after the keyword line and stops at the next
      last occurrence of any keyword, or runs to the end. */
  lemma {:induction false} RecordedSliceBounds(hs: seq<Option<nat>>, t: seq<Entry>, k: nat)
    requires Records(hs, t) && |hs| <= Sentinel && k < |t| && t[k].line != 0
    ensures t[k].line < |hs|
    ensures SliceBounds(t, k).start == t[k].line + 1
    ensures SliceBounds(t, k).stop.None? ==> NextLastOccurrence(hs, t[k].line + 1) == |hs|
    ensures SliceBounds(t, k).stop.Some? ==>
      SliceBounds(t, k).stop.value == NextLastOccurrence(hs, t[k].line + 1)
  {
    var off := t[k].line;
    SliceBoundsNextSection(t, k, |hs|);
    var b := SliceBounds(t, k);
    if b.stop.Some? {
      var s := b.stop.value;
      var i :| 0 <= i < |t| && t[i].line == s;
      NextRecordedAfter(hs, t, off, s, i);
    } else {
      NothingRecordedAfter(hs, t, off);
    }
  }

  /** The end of the body of a section whose keyword is on line `off`. */
  ghost function BodyEnd(lines: seq<string>, off: nat): nat
    requires off < |lines|
  {
    NextLastOccurrence(HeadsOf(lines), off + 1)
  }

  /** The tokenized lines of a slice, blank lines dropped, in file order. */
  function Rows(s: seq<string>): (r: seq<seq<string>>)
    ensures |r| <= |s|
    ensures forall i :: 0 <= i < |r| ==> |r[i]| > 0
  {
    if s == [] then []
    else
      var line := Split(s[0]);
      if line == [] then Rows(s[1..]) else [line] + Rows(s[1..])
  }

  /** Every row is the tokenized form of one of the lines. */
  lemma {:induction false} RowsComeFromLines(s: seq<string>)
    ensures forall row :: row in Rows(s) ==> exists j :: 0 <= j < |s| && row == Split(s[j])
  {
    if s != [] {
      RowsComeFromLines(s[1..]);
      forall row | row in Rows(s[1..])
        ensures exists j :: 0 <= j < |s| && row == Split(s[j])
      {
        var j :| 0 <= j < |s[1..]| && row == Split(s[1..][j]);
        assert s[1..][j] == s[j + 1];
      }
    }
  }

  /** Conversely, every non-blank line contributes its tokens as a row. */
  lemma {:induction false} LinesReachRows(s: seq<string>, j: nat)
    requires j < |s| && |Split(s[j])| > 0
    ensures Split(s[j]) in Rows(s)
  {
    if j > 0 {
      LinesReachRows(s[1..], j - 1);
      assert s[1..][j - 1] == s[j];
    }
  }

  /** Dropping blank lines and tokenizing commutes with joining two runs of
      lines. */
  lemma {:induction false} RowsAppend(a: seq<string>, b: seq<string>)
    ensures Rows(a + b) == Rows(a) + Rows(b)
  {
    if a == [] {
      assert a + b == b;
    } else {
      assert (a + b)[1..] == a[1..] + b;
      assert (a + b)[0] == a[0];
      RowsAppend(a[1..], b);
    }
  }

  /** Section `k` of the file, as the six extractors compute it. */
  function Extract(lines: seq<string>, k: nat): seq<seq<string>>
    requires k < |Sections|
  {
    var b := SliceBounds(Locate(lines), k);
    Rows(PySlice(lines, b.start, b.stop))
  }

  /** What the body of section `k` is: nothing when its table entry is 0,
      and otherwise the non-blank lines strictly between its keyword line and
      the next line that is the last occurrence of a keyword (or the end of
      the file), tokenized. */
  ghost predicate IsSectionBody(lines: seq<string>, k: nat, r: seq<seq<string>>)
    requires k < |Sections|
  {
    var off := Locate(lines)[k].line;
    && (off == 0 ==> r == [])
    && (off != 0 && |lines| <= Sentinel ==> r == Rows(lines[off + 1..BodyEnd(lines, off)]))
  }

  /** The extractor computes exactly the section body. */
  lemma {:induction false} ExtractIsSectionBody(lines: seq<string>, k: nat)
    requires k < |Sections|
    ensures IsSectionBody(lines, k, Extract(lines, k))
  {
    var t := Locate(lines);
    var b := SliceBounds(t, k);
    if t[k].line == 0 {
      PySliceCases(lines, b.start, b.stop);
    } else if |lines| <= Sentinel {
      PresentSectionSlice(lines, k);
    }
  }

  /** The slice the extractor takes for a present section is the run of
      lines from after its keyword line to the end of its body. */
  lemma {:induction false} PresentSectionSlice(lines: seq<string>, k: nat)
    requires k < |Sections| && Locate(lines)[k].line != 0 && |lines| <= Sentinel
    ensures var b := SliceBounds(Locate(lines), k);
      PySlice(lines, b.start, b.stop) == lines[Locate(lines)[k].line + 1..BodyEnd(lines, Locate(lines)[k].line)]
  {
    LocateRecords(lines);
    RecordedSlice(lines, HeadsOf(lines), Locate(lines), k);
  }

  /** The same on the per-line keyword lookups, for any list as long as the
      file. */
  lemma {:induction false} RecordedSlice<T>(s: seq<T>, hs: seq<Option<nat>>, t: seq<Entry>, k: nat)
    requires Records(hs, t) && |s| == |hs| <= Sentinel && k < |t| && t[k].line != 0
    ensures t[k].line < |hs|
    ensures PySlice(s, SliceBounds(t, k).start, SliceBounds(t, k).stop)
      == s[t[k].line + 1..NextLastOccurrence(hs, t[k].line + 1)]
  {
    RecordedSliceBounds(hs, t, k);
    PySliceCases(s, SliceBounds(t, k).start, SliceBounds(t, k).stop);
  }

  /** A line after 0 that opens a section is at or before that section's
      recorded offset. */
  lemma {:induction false} OpenedAtOrBeforeRecorded(lines: seq<string>, j: nat)
    requires 0 < j < |lines|
    ensures HeadIndex(lines[j]).Some? ==> j <= Locate(lines)[HeadIndex(lines[j]).value].line
  {
    if HeadIndex(lines[j]).Some? {
      assert Heads(lines, j, HeadIndex(lines[j]).value);
    }
  }

  /** No line of the file after line `off` opens a section. */
  ghost predicate PlainAfter(lines: seq<string>, off: nat) {
    forall j :: off < j < |lines| ==> HeadIndex(lines[j]) == None
  }

  /** No line after the largest recorded offset opens a section. */
  lemma {:induction false} NoHeadAfterLargest(lines: seq<string>, off: nat)
    requires off != 0 && off == MaxEntry(Locate(lines)).line
    ensures off < |lines|
    ensures PlainAfter(lines, off)
  {
    forall j | off < j < |lines|
      ensures HeadIndex(lines[j]) == None
    {
      OpenedAtOrBeforeRecorded(lines, j);
    }
  }

  /** No row of `rows` opens a section. */
  ghost predicate NoKeywordRows(rows: seq<seq<string>>) {
    forall row :: row in rows ==> KeywordOf(row) == None
  }

  /** Rows of lines none of which opens a section open no section either. */
  lemma {:induction false} RowsOfPlainLines(s: seq<string>)
    requires forall j :: 0 <= j < |s| ==> HeadIndex(s[j]) == None
    ensures NoKeywordRows(Rows(s))
  {
    RowsComeFromLines(s);
  }

  /** The same for the rows of the lines of a file after line `off`. */
  lemma {:induction false} PlainRows(lines: seq<string>, off: nat)
    requires off < |lines| && PlainAfter(lines, off)
    ensures NoKeywordRows(Rows(lines[off + 1..]))
  {
    var s := lines[off + 1..];
    forall j | 0 <= j < |s|
      ensures HeadIndex(s[j]) == None
    {
      assert s[j] == lines[off + 1 + j];
    }
    RowsOfPlainLines(s);
  }

  /** The slice of the section with the largest offset is open-ended. */
  lemma {:induction false} LargestSliceIsOpen(t: seq<Entry>, k: nat)
    requires |t| == |Sections| && k < |t|
    requires t[k].line != 0 && t[k].line == MaxEntry(t).line
    ensures SliceBounds(t, k) == Bounds(t[k].line + 1, None)
  {
  }

  /** So it takes every element after the section's offset, for any list
      longer than that offset. */
  lemma {:induction false} LargestSlice<T>(s: seq<T>, t: seq<Entry>, k: nat)
    requires TableShape(t, |s|) && k < |t|
    requires t[k].line != 0 && t[k].line == MaxEntry(t).line
    ensures PySlice(s, SliceBounds(t, k).start, SliceBounds(t, k).stop) == s[t[k].line + 1..]
  {
    LargestSliceIsOpen(t, k);
    PySliceCases(s, t[k].line + 1, None);
  }

  /** The section with the largest offset runs to the end of the file. */
  lemma {:induction false} LastSectionRunsToEnd(lines: seq<string>, k: nat)
    requires k < |Sections|
    requires Locate(lines)[k].line != 0 && Locate(lines)[k].line == MaxEntry(Locate(lines)).line
    ensures Extract(lines, k) == Rows(lines[Locate(lines)[k].line + 1..])
  {
    LocateRecords(lines);
    LargestSlice(lines, Locate(lines), k);
  }

  /** The rows after the largest recorded offset open no section: any
      later keyword line would have been recorded after it.  Those rows are
      what the extractor returns for that section (`LastSectionRunsToEnd`). */
  lemma {:induction false} LastLinesPlain(lines: seq<string>, off: nat)
    requires off != 0 && off == MaxEntry(Locate(lines)).line
    ensures off < |lines|
    ensures NoKeywordRows(Rows(lines[off + 1..]))
  {
    NoHeadAfterLargest(lines, off);
    PlainRows(lines, off);
  }

  /** A keyword line inside the body of a section opens a section that is
      opened again further down: its recorded offset is at or after the end
      of the body.  Under last-match-wins, an earlier duplicate keyword line
      is read as data. */
  lemma {:induction false} BodyKeywordsReopenLater(lines: seq<string>, k: nat, j: nat)
    requires k < |Sections| && Locate(lines)[k].line != 0
    requires Locate(lines)[k].line < j < BodyEnd(lines, Locate(lines)[k].line)
    ensures HeadIndex(lines[j]).Some? ==>
      BodyEnd(lines, Locate(lines)[k].line) <= Locate(lines)[HeadIndex(lines[j]).value].line
  {
    var hs := HeadsOf(lines);
    var r := LastHead(hs, if hs[j].Some? then hs[j].value else 0);
    assert Locate(lines) == Table(hs);
    assert hs[j].Some? ==> j <= r && LastOccurrence(hs, r);
  }

  /** A line that opens a section is not blank. */
  lemma {:induction false} HeadLineNotBlank(line: string)
    requires HeadIndex(line).Some?
    ensures |Split(line)| > 0
  {
  }

  /** A non-blank line in front of a run of lines contributes one row in
      front of that run's rows. */
  lemma {:induction false} RowsCons(a: string, body: seq<string>)
    requires |Split(a)| > 0
    ensures Rows([a] + body) == [Split(a)] + Rows(body)
  {
    assert ([a] + body)[1..] == body;
  }

  /** The rows of the block from a non-blank line `i` up to line `e` are
      line `i`'s tokens followed by the rows strictly after it. */
  lemma {:induction false} HeadedBlock(lines: seq<string>, i: nat, e: nat, body: seq<seq<string>>)
    requires i < e <= |lines| && |Split(lines[i])| > 0
    requires body == Rows(lines[i + 1..e])
    ensures Rows(lines[i..e]) == [Split(lines[i])] + body
  {
    SliceCons(lines, i, e);
    RowsCons(lines[i], lines[i + 1..e]);
  }

  /** A present section's keyword line is not blank and comes before the end
      of its body. */
  lemma {:induction false} SectionFrame(lines: seq<string>, k: nat)
    requires k < |Sections| && Locate(lines)[k].line != 0
    ensures Locate(lines)[k].line < BodyEnd(lines, Locate(lines)[k].line) <= |lines|
    ensures |Split(lines[Locate(lines)[k].line])| > 0
  {
    HeadLineNotBlank(lines[Locate(lines)[k].line]);
  }

  /** Round trip: the rows of the block that runs from a present section's
      keyword line to the end of its body are the keyword line's tokens
      followed by the section body.  The body is what the extractors return
      (`ExtractIsSectionBody`), so re-reading the block gives back the
      keyword and exactly the extracted rows. */
  lemma {:induction false} SectionBlockRoundTrip(lines: seq<string>, k: nat, body: seq<seq<string>>)
    requires k < |Sections| && |lines| <= Sentinel
    requires Locate(lines)[k].line != 0
    requires IsSectionBody(lines, k, body)
    ensures Rows(lines[Locate(lines)[k].line..BodyEnd(lines, Locate(lines)[k].line)])
      == [Split(lines[Locate(lines)[k].line])] + body
  {
    SectionFrame(lines, k);
    HeadedBlock(lines, Locate(lines)[k].line, BodyEnd(lines, Locate(lines)[k].line), body);
  }

  /** Each row written back out as a line, its tokens joined by one space
      (`" ".join`). */
  function Rejoin(rows: seq<seq<string>>): seq<string> {
    seq(|rows|, i requires 0 <= i < |rows| => Join(rows[i]))
  }

  /** Rows as the extractors produce them: non-empty lists of tokens. */
  predicate WordRows(rows: seq<seq<string>>) {
    forall i :: 0 <= i < |rows| ==>
      |rows[i]| > 0 && forall j :: 0 <= j < |rows[i]| ==> IsWord(rows[i][j])
  }

  /** Tokenizing lines and dropping the blank ones gives rows of tokens. */
  lemma {:induction false} RowsAreWords(s: seq<string>)
    ensures WordRows(Rows(s))
  {
    if s != [] {
      RowsAreWords(s[1..]);
      SplitGivesWords(s[0]);
    }
  }

  /** Writing rows of tokens back out as lines and reading them again gives
      the same rows. */
  lemma {:induction false} RejoinRows(rows: seq<seq<string>>)
    requires WordRows(rows)
    ensures Rows(Rejoin(rows)) == rows
  {
    if |rows| > 0 {
      SplitJoin(rows[0]);
      assert Rejoin(rows) == [Join(rows[0])] + Rejoin(rows[1..]);
      RowsCons(Join(rows[0]), Rejoin(rows[1..]));
      assert WordRows(rows[1..]) by {
        forall i | 0 <= i < |rows| - 1
          ensures |rows[1..][i]| > 0 && forall j :: 0 <= j < |rows[1..][i]| ==> IsWord(rows[1..][i][j])
        {
          assert rows[1..][i] == rows[i + 1];
        }
      }
      RejoinRows(rows[1..]);
      assert rows == [rows[0]] + rows[1..];
    }
  }

  /** Round trip on text: writing an extracted section back out, one line per
      row, and extracting it again (tokenize, drop blank lines) gives the
      same section. */
  lemma {:induction false} ExtractRejoins(lines: seq<string>, k: nat)
    requires k < |Sections|
    ensures Rows(Rejoin(Extract(lines, k))) == Extract(lines, k)
  {
    var b := SliceBounds(Locate(lines), k);
    RowsAreWords(PySlice(lines, b.start, b.stop));
    RejoinRows(Extract(lines, k));
  }

  /** A file whose six keywords each open exactly one line after the first,
      at increasing positions, gets those positions as its offsets, in the
      order of the table. */
  lemma {:induction false} CanonicalOffsets(lines: seq<string>, p: seq<nat>)
    requires |p| == |Sections|
    requires forall k :: 0 <= k < |p| ==> 0 < p[k] < |lines| && Heads(lines, p[k], k)
    requires forall k, j :: 0 <= k < |p| && 0 < j < |lines| && Heads(lines, j, k) ==> j == p[k]
    requires forall a, b :: 0 <= a < b < |p| ==> p[a] < p[b]
    ensures forall k :: 0 <= k < |Sections| ==> Locate(lines)[k].line == p[k]
    ensures forall a, b :: 0 <= a < b < |Sections| ==> Locate(lines)[a].line < Locate(lines)[b].line
  {
    forall k | 0 <= k < |Sections|
      ensures Locate(lines)[k].line == p[k]
    {
    }
  }

  /** `masses` (table index 0). */
  function Masses(lines: seq<string>): (r: seq<seq<string>>)
    ensures IsSectionBody(lines, 0, r)
  {
    ExtractIsSectionBody(lines, 0);
    Extract(lines, 0)
  }

  /** `atoms` (table index 1). */
  function Atoms(lines: seq<string>): (r: seq<seq<string>>)
    ensures IsSectionBody(lines, 1, r)
  {
    ExtractIsSectionBody(lines, 1);
    Extract(lines, 1)
  }

  /** `bonds` (table index 2). */
  function Bonds(lines: seq<string>): (r: seq<seq<string>>)
    ensures IsSectionBody(lines, 2, r)
  {
    ExtractIsSectionBody(lines, 2);
    Extract(lines, 2)
  }

  /** `angles` (table index 3). */
  function Angles(lines: seq<string>): (r: seq<seq<string>>)
    ensures IsSectionBody(lines, 3, r)
  {
    ExtractIsSectionBody(lines, 3);
    Extract(lines, 3)
  }

  /** `dihedrals` (table index 4). */
  function Dihedrals(lines: seq<string>): (r: seq<seq<string>>)
    ensures IsSectionBody(lines, 4, r)
  {
    ExtractIsSectionBody(lines, 4);
    Extract(lines, 4)
  }

  /** `impropers` (table index 5). */
  function Impropers(lines: seq<string>): (r: seq<seq<string>>)
    ensures IsSectionBody(lines, 5, r)
  {
    ExtractIsSectionBody(lines, 5);
    Extract(lines, 5)
  }
}

=== FILE: header.dfy ===
/** The header reader (`lid_header`): the lines before the first section are
    scanned for count lines, type-count lines and box lines, and each match
    stores raw tokens into one of three fixed-size lists. */
module Header {
  import opened Wrappers
  import opened Builtins
  import opened Tokens
  import opened LidFormat

  /** One slot of a header list: the integer 0 it starts as, or the raw token
      stored into it.  Tokens are never converted to numbers. */
  datatype Slot = Zero | Tok(text: string)

  /** The three lists `lid_header` returns: counts of atoms, bonds, angles,
      dihedrals and impropers; the matching type counts; and the box bounds
      `xlo xhi ylo yhi zlo zhi`. */
  datatype HeaderData = HeaderData(molecular: seq<Slot>, types: seq<Slot>, boundary: seq<Slot>)

  /** The exception the box branch raises when it writes past the last slot. */
  datatype HeaderError = IndexError

  /** The three lists, named. */
  datatype Group = Molecular | Types | Boundary

  /** The number of slots of each list: one per property name. */
  function Width(g: Group): (n: nat)
    ensures g == Molecular ==> n == |MolecularProps|
    ensures g == Types ==> n == |TypeProps|
    ensures g == Boundary ==> n == |BoxProps|
  {
    match g
    case Molecular => 5
    case Types => 5
    case Boundary => 6
  }

  /** Every list has its fixed length. */
  predicate WellSized(h: HeaderData) {
    |h.molecular| == Width(Molecular) && |h.types| == Width(Types) && |h.boundary| == Width(Boundary)
  }

  /** Slot `i` of list `g`. */
  function Get(h: HeaderData, g: Group, i: nat): Slot
    requires WellSized(h) && i < Width(g)
  {
    match g
    case Molecular => h.molecular[i]
    case Types => h.types[i]
    case Boundary => h.boundary[i]
  }

  /** The lists before any line is read: every slot is 0. */
  const Initial: HeaderData :=
    HeaderData([Zero, Zero, Zero, Zero, Zero], [Zero, Zero, Zero, Zero, Zero], [Zero, Zero, Zero, Zero, Zero, Zero])

  /** What a tokenized line is to the header scan.  A box line carries the
      position of its label and the two bounds it stores. */
  datatype LineKind =
    | Count(slot: nat, value: string)
    | TypeCount(slot: nat, value: string)
    | BoxPair(slot: nat, lo: string, hi: string)
    | SectionStart
    | Other

  /** The branch of the scan a tokenized line takes.  The tests are tried in
      order: count line, type-count line, box line, section keyword; a line
      that passes an earlier test is never looked at by a later one. */
  function Classify(t: seq<string>): (c: LineKind)
    ensures c.Count? <==> |t| >= 2 && t[1] in MolecularProps
    ensures c.Count? ==> c.slot < |MolecularProps| && MolecularProps[c.slot] == t[1] && c.value == t[0]
    ensures c.TypeCount? <==> !(|t| >= 2 && t[1] in MolecularProps) && |t| >= 3 && t[1] in TypeProps
    ensures c.TypeCount? ==> c.slot < |TypeProps| && TypeProps[c.slot] == t[1] && c.value == t[0]
    ensures c.BoxPair? <==>
      && !(|t| >= 2 && t[1] in MolecularProps)
      && !(|t| >= 3 && t[1] in TypeProps)
      && |t| >= 4 && t[2] in BoxProps
    ensures c.BoxPair? ==> c.slot < |BoxProps| && BoxProps[c.slot] == t[2] && c.lo == t[0] && c.hi == t[1]
    ensures c.SectionStart? <==>
      && !(|t| >= 2 && t[1] in MolecularProps)
      && !(|t| >= 3 && t[1] in TypeProps)
      && !(|t| >= 4 && t[2] in BoxProps)
      && |t| >= 1 && t[0] in Sections
  {
    if |t| >= 2 && t[1] in MolecularProps then Count(IndexOf(MolecularProps, t[1]), t[0])
    else if |t| >= 3 && t[1] in TypeProps then TypeCount(IndexOf(TypeProps, t[1]), t[0])
    else if |t| >= 4 && t[2] in BoxProps then BoxPair(IndexOf(BoxProps, t[2]), t[0], t[1])
    else if |t| >= 1 && t[0] in Sections then SectionStart
    else Other
  }

  /** The slot positions a kind carries are within its list. */
  predicate InRange(c: LineKind) {
    match c
    case Count(i, _) => i < Width(Molecular)
    case TypeCount(i, _) => i < Width(Types)
    case BoxPair(i, _, _) => i < Width(Boundary)
    case _ => true
  }

  /** The kind of every line of a file. */
  function KindsOf(lines: seq<string>): (ks: seq<LineKind>)
    ensures |ks| == |lines|
    ensures forall j :: 0 <= j < |lines| ==> InRange(ks[j])
  {
    seq(|lines|, j requires 0 <= j < |lines| => Classify(Split(lines[j])))
  }

  /** A box line whose label is the last one: its upper bound would go one
      slot past the end of the box list. */
  predicate Overflows(c: LineKind) {
    c.BoxPair? && c.slot + 1 >= Width(Boundary)
  }

  /** The value a line of kind `c` writes into slot `i` of list `g`, if any.
      A box line writes its two bounds into the label's slot and the next. */
  function Writes(c: LineKind, g: Group, i: nat): Option<string> {
    match c
    case Count(s, v) => if g == Molecular && i == s then Some(v) else None
    case TypeCount(s, v) => if g == Types && i == s then Some(v) else None
    case BoxPair(s, lo, hi) =>
      if g == Boundary && i == s then Some(lo)
      else if g == Boundary && i == s + 1 then Some(hi)
      else None
    case _ => None
  }

  /** The slot holding `w` over the default `d`. */
  function Final(w: Option<string>, d: Slot): Slot {
    match w
    case Some(v) => Tok(v)
    case None => d
  }

  /** One pass of the loop body over a line that is not a section keyword:
      the slots the line writes take its tokens, every other slot keeps its
      value, and a box line with the last label raises the index error. */
  function Apply(c: LineKind, h: HeaderData): (r: Result<HeaderData, HeaderError>)
    requires WellSized(h) && InRange(c)
    ensures r.Failure? <==> Overflows(c)
    ensures r.Success? ==> WellSized(r.value)
    ensures r.Success? ==> forall g: Group, i: nat :: i < Width(g) ==>
      Get(r.value, g, i) == Final(Writes(c, g, i), Get(h, g, i))
  {
    match c
    case Count(i, v) => Success(h.(molecular := h.molecular[i := Tok(v)]))
    case TypeCount(i, v) => Success(h.(types := h.types[i := Tok(v)]))
    case BoxPair(i, lo, hi) =>
      if i + 1 < |h.boundary| then Success(h.(boundary := h.boundary[i := Tok(lo)][i + 1 := Tok(hi)]))
      else Failure(IndexError)
    case _ => Success(h)
  }

  /** The scan over line kinds from the lists `h`: stop with success at the
      first section keyword or at the end of the file, and stop with the
      error the first time the loop body raises it. */
  function Scan(ks: seq<LineKind>, h: HeaderData): (r: Result<HeaderData, HeaderError>)
    requires WellSized(h)
    requires forall j :: 0 <= j < |ks| ==> InRange(ks[j])
    ensures r.Success? ==> WellSized(r.value)
    decreases |ks|
  {
    if ks == [] || ks[0].SectionStart? then Success(h)
    else
      match Apply(ks[0], h)
      case Failure(e) => Failure(e)
      case Success(h') => Scan(ks[1..], h')
  }

  /** `lid_header` on the lines of a file. */
  function ReadHeader(lines: seq<string>): Result<HeaderData, HeaderError> {
    Scan(KindsOf(lines), Initial)
  }

  /** The first line kind that is a section keyword, or the end. */
  function StopIndex(ks: seq<LineKind>): (s: nat)
    ensures s <= |ks|
    ensures forall j :: 0 <= j < s ==> !ks[j].SectionStart?
    ensures s < |ks| ==> ks[s].SectionStart?
    decreases |ks|
  {
    if ks == [] || ks[0].SectionStart? then 0 else 1 + StopIndex(ks[1..])
  }

  /** The value the last line of `ks` that writes slot `i` of list `g` writes. */
  function LastWrite(ks: seq<LineKind>, g: Group, i: nat): (r: Option<string>)
    ensures r.None? <==> forall j :: 0 <= j < |ks| ==> Writes(ks[j], g, i).None?
    ensures r.Some? ==> exists j :: 0 <= j < |ks| && Writes(ks[j], g, i) == r &&
                         forall j' :: j < j' < |ks| ==> Writes(ks[j'], g, i).None?
    decreases |ks|
  {
    if ks == [] then None
    else
      var rest := LastWrite(ks[1..], g, i);
      assert forall j :: 1 <= j < |ks| ==> ks[1..][j - 1] == ks[j];
      if rest.Some? then rest else Writes(ks[0], g, i)
  }

  /** Nothing at or after the first section keyword affects the scan. */
  lemma {:induction false} ScanStopsAtSection(ks: seq<LineKind>, h: HeaderData)
    requires WellSized(h)
    requires forall j :: 0 <= j < |ks| ==> InRange(ks[j])
    ensures Scan(ks, h) == Scan(ks[..StopIndex(ks)], h)
    decreases |ks|
  {
    var n := StopIndex(ks);
    if ks != [] && !ks[0].SectionStart? {
      var p := ks[..n];
      assert p[0] == ks[0] && p[1..] == ks[1..][..StopIndex(ks[1..])];
      match Apply(ks[0], h)
      case Failure(_) =>
      case Success(h') => ScanStopsAtSection(ks[1..], h');
    }
  }

  /** The scan fails exactly when a box line with the last label comes
      before the first section keyword. */
  lemma {:induction false} ScanFailsOnOverflow(ks: seq<LineKind>, h: HeaderData)
    requires WellSized(h)
    requires forall j :: 0 <= j < |ks| ==> InRange(ks[j])
    ensures Scan(ks, h).Failure? <==> exists j :: 0 <= j < StopIndex(ks) && Overflows(ks[j])
    decreases |ks|
  {
    if ks != [] && !ks[0].SectionStart? {
      var n := StopIndex(ks);
      assert forall j :: 1 <= j < n ==> ks[1..][j - 1] == ks[j];
      match Apply(ks[0], h)
      case Failure(_) =>
        assert Overflows(ks[0]);
      case Success(h') =>
        ScanFailsOnOverflow(ks[1..], h');
        assert !Overflows(ks[0]);
        assert (exists j :: 0 <= j < n && Overflows(ks[j])) ==> exists j :: 0 <= j < n - 1 && Overflows(ks[1..][j]);
    }
  }

  /** Every slot of a successful scan holds the token of the last line
      before the first section keyword that writes it, or its starting value
      when no such line writes it. */
  lemma {:induction false} ScanSlots(ks: seq<LineKind>, h: HeaderData, g: Group, i: nat)
    requires WellSized(h) && i < Width(g)
    requires forall j :: 0 <= j < |ks| ==> InRange(ks[j])
    requires Scan(ks, h).Success?
    ensures Get(Scan(ks, h).value, g, i) == Final(LastWrite(ks[..StopIndex(ks)], g, i), Get(h, g, i))
    decreases |ks|
  {
    var n := StopIndex(ks);
    if ks != [] && !ks[0].SectionStart? {
      var p := ks[..n];
      assert p[0] == ks[0] && p[1..] == ks[1..][..StopIndex(ks[1..])];
      var h' := Apply(ks[0], h).value;
      ScanSlots(ks[1..], h', g, i);
    }
  }

  /** One step of the scan from position `n`. */
  lemma {:induction false} ScanStep(ks: seq<LineKind>, n: nat, h: HeaderData)
    requires WellSized(h) && n < |ks| && !ks[n].SectionStart?
    requires forall j :: 0 <= j < |ks| ==> InRange(ks[j])
    ensures Scan(ks[n..], h) ==
      match Apply(ks[n], h)
      case Failure(e) => Failure(e)
      case Success(h') => Scan(ks[n + 1..], h')
  {
    assert ks[n..][0] == ks[n] && ks[n..][1..] == ks[n + 1..];
  }

  /** The line index at which the header scan of a file stops. */
  function HeaderEnd(lines: seq<string>): nat {
    StopIndex(KindsOf(lines))
  }

  /** The kinds of a prefix are the prefix of the kinds. */
  lemma {:induction false} KindsOfPrefix(lines: seq<string>, n: nat)
    requires n <= |lines|
    ensures KindsOf(lines[..n]) == KindsOf(lines)[..n]
  {
  }

  /** The stop rule: the header of a file is the header of its lines before
      the first line the scan treats as a section keyword. */
  lemma {:induction false} HeaderStopsAtSection(lines: seq<string>)
    ensures ReadHeader(lines) == ReadHeader(lines[..HeaderEnd(lines)])
  {
    KindsOfPrefix(lines, HeaderEnd(lines));
    ScanStopsAtSection(KindsOf(lines), Initial);
  }

  /** Two files that agree up to and including the line that stops the scan
      of the first have the same header. */
  lemma {:induction false} HeaderIgnoresRest(a: seq<string>, b: seq<string>)
    requires HeaderEnd(a) < |a| && HeaderEnd(a) < |b|
    requires a[..HeaderEnd(a) + 1] == b[..HeaderEnd(a) + 1]
    ensures HeaderEnd(b) == HeaderEnd(a)
    ensures ReadHeader(a) == ReadHeader(b)
  {
    var n := HeaderEnd(a);
    KindsOfPrefix(a, n + 1);
    KindsOfPrefix(b, n + 1);
    assert forall j :: 0 <= j <= n ==> a[j] == a[..n + 1][j] == b[..n + 1][j] == b[j];
    assert forall j :: 0 <= j <= n ==> KindsOf(a)[j] == KindsOf(b)[j];
    assert HeaderEnd(b) == n;
    assert a[..n] == b[..n];
    HeaderStopsAtSection(a);
    HeaderStopsAtSection(b);
  }

  /** `lid_header` raises its index error exactly when a box line with the
      last label comes before the first section keyword. */
  lemma {:induction false} HeaderFailsOnOverflow(lines: seq<string>)
    ensures ReadHeader(lines).Failure? <==>
      exists j :: 0 <= j < HeaderEnd(lines) && Overflows(KindsOf(lines)[j])
  {
    ScanFailsOnOverflow(KindsOf(lines), Initial);
  }

  /** The box line with the last label is the one whose third token is
      `zhi`. */
  lemma {:induction false} OverflowIsZhi(lines: seq<string>, j: nat)
    requires j < |lines|
    ensures Overflows(KindsOf(lines)[j]) <==> KindsOf(lines)[j].BoxPair? && Split(lines[j])[2] == "zhi"
  {
    var t := Split(lines[j]);
    if KindsOf(lines)[j].BoxPair? {
      assert |BoxProps| == 6 && BoxProps[5] == "zhi";
      assert forall i :: 0 <= i < 5 ==> BoxProps[i] != "zhi";
    }
  }

  /** Every slot of the header holds the first token (or, for the upper box
      bound, the second token) of the last line before the stop that writes
      it, and 0 when no such line does. */
  lemma {:induction false} HeaderSlotsAreLastWrites(lines: seq<string>, g: Group, i: nat)
    requires i < Width(g) && ReadHeader(lines).Success?
    ensures Get(ReadHeader(lines).value, g, i) ==
      Final(LastWrite(KindsOf(lines)[..HeaderEnd(lines)], g, i), Zero)
  {
    ScanSlots(KindsOf(lines), Initial, g, i);
  }

  /** The body of the loop of `lid_header` on one tokenized line: the four
      branches are tried in order; the box branch writes the lower bound
      before it writes the upper bound; `leave` is set by the section branch,
      which leaves the loop. */
  method HeaderLine(t: seq<string>, h: HeaderData) returns (r: Result<HeaderData, HeaderError>, leave: bool)
    requires WellSized(h)
    ensures leave <==> Classify(t).SectionStart?
    ensures !leave ==> r == Apply(Classify(t), h)
  {
    var molecular, types, boundary := h.molecular, h.types, h.boundary;
    leave := false;
    if |t| >= 2 && t[1] in MolecularProps {
      molecular := molecular[IndexOf(MolecularProps, t[1]) := Tok(t[0])];
    } else if |t| >= 3 && t[1] in TypeProps {
      types := types[IndexOf(TypeProps, t[1]) := Tok(t[0])];
    } else if |t| >= 4 && t[2] in BoxProps {
      var i := IndexOf(BoxProps, t[2]);
      boundary := boundary[i := Tok(t[0])];
      if i + 1 >= |boundary| {
        return Failure(IndexError), false;
      }
      boundary := boundary[i + 1 := Tok(t[1])];
    } else if |t| >= 1 && t[0] in Sections {
      leave := true;
    }
    r := Success(HeaderData(molecular, types, boundary));
  }

  /** The loop of `lid_header`: every line is tokenized and handed to the
      loop body until the body leaves the loop or raises. */
  method LidHeader(lines: seq<string>) returns (r: Result<HeaderData, HeaderError>)
    ensures r == ReadHeader(lines)
  {
    var h := Initial;
    ghost var ks := KindsOf(lines);
    var n := 0;
    while n < |lines|
      invariant 0 <= n <= |lines|
      invariant WellSized(h)
      invariant Scan(ks[n..], h) == ReadHeader(lines)
    {
      var step, leave := HeaderLine(Split(lines[n]), h);
      if leave {
        break;
      }
      ScanStep(ks, n, h);
      if step.Failure? {
        return step;
      }
      h := step.value;
      n := n + 1;
    }
    r := Success(h);
  }
}

=== FILE: lid_format.dfy ===
/** The fixed vocabulary of a LAMMPS input data file as the parser knows it. */
module LidFormat {
  import opened Wrappers
  import opened Tokens

  /** The six section keywords, in the order of the locator's table. */
  const Sections: seq<string> := ["Masses", "Atoms", "Bonds", "Angles", "Dihedrals", "Impropers"]

  /** Second token of a count line such as `2 atoms`. */
  const MolecularProps: seq<string> := ["atoms", "bonds", "angles", "dihedrals", "impropers"]

  /** Second token of a type-count line such as `1 atom types`. */
  const TypeProps: seq<string> := ["atom", "bond", "angle", "dihedral", "improper"]

  /** Third token of a box line such as `0.0 10.0 xlo xhi`. */
  const BoxProps: seq<string> := ["xlo", "xhi", "ylo", "yhi", "zlo", "zhi"]

  /** The table position of the section a tokenized line opens: its first
      token compared exactly, case included, with each keyword in turn. */
  function KeywordOf(tokens: seq<string>): (r: Option<nat>)
    ensures r.Some? ==> |tokens| >= 1 && r.value < |Sections|
  {
    if |tokens| == 0 then None
    else if tokens[0] == "Masses" then Some(0)
    else if tokens[0] == "Atoms" then Some(1)
    else if tokens[0] == "Bonds" then Some(2)
    else if tokens[0] == "Angles" then Some(3)
    else if tokens[0] == "Dihedrals" then Some(4)
    else if tokens[0] == "Impropers" then Some(5)
    else None
  }

  /** A tokenized line opens a section exactly when its first token is one of
      the six keywords, and the position found is that keyword's. */
  lemma KeywordOfSections(tokens: seq<string>)
    ensures KeywordOf(tokens).Some? <==> |tokens| >= 1 && tokens[0] in Sections
    ensures KeywordOf(tokens).Some? ==> Sections[KeywordOf(tokens).value] == tokens[0]
  {
  }

  /** The section a raw line opens, if any. */
  function HeadIndex(line: string): Option<nat> {
    KeywordOf(Split(line))
  }

  /** The section each line of a file opens, line by line. */
  function HeadsOf(lines: seq<string>): (hs: seq<Option<nat>>)
    ensures |hs| == |lines|
    ensures forall j :: 0 <= j < |lines| && hs[j].Some? ==> hs[j].value < |Sections|
  {
    seq(|lines|, j requires 0 <= j < |lines| => HeadIndex(lines[j]))
  }
}

=== FILE: locator.dfy ===
/** The section locator (`parse_lid`): one pass over every line of the file,
    recording for each section keyword the index of the line that opens it. */
module Locator {
  import opened Wrappers
  import opened Builtins
  import opened Tokens
  import opened LidFormat

  /** One `[offset, 0]` pair of the table: the keyword's line index (0 when it
      was never seen) and a second element that is always zero. */
  datatype Entry = Entry(line: int, zero: int)

  /** Line `j` opens section `k`. */
  predicate Heads(lines: seq<string>, j: nat, k: nat)
    requires j < |lines|
  {
    HeadIndex(lines[j]) == Some(k)
  }

  /** The last position of the per-line keyword lookups `hs` that opens
      section `k`, or 0 when there is none.  Position 0 itself is reported
      as 0 too, so the two cases cannot be told apart. */
  function LastHead(hs: seq<Option<nat>>, k: nat): (r: nat)
    ensures r == 0 || (r < |hs| && hs[r] == Some(k))
    ensures forall j :: r < j < |hs| ==> hs[j] != Some(k)
    decreases |hs|
  {
    if |hs| == 0 then 0
    else if hs[|hs| - 1] == Some(k) then |hs| - 1
    else LastHead(hs[..|hs| - 1], k)
  }

  /** The table built from the per-line keyword lookups `hs`: entry `k` holds
      the last position that opens section `k`. */
  function Table(hs: seq<Option<nat>>): seq<Entry> {
    seq(|Sections|, k requires 0 <= k < |Sections| => Entry(LastHead(hs, k), 0))
  }

  /** The table `parse_lid` returns.  The last occurrence of each keyword
      wins.  An entry is 0 both when the keyword is missing and when its last
      occurrence is line 0. */
  function Locate(lines: seq<string>): (r: seq<Entry>)
    ensures |r| == |Sections|
    ensures forall k :: 0 <= k < |r| ==> r[k].zero == 0 && 0 <= r[k].line
    ensures forall k :: 0 <= k < |r| && r[k].line != 0 ==>
      && r[k].line < |lines|
      && Heads(lines, r[k].line, k)
      && forall j :: r[k].line < j < |lines| ==> !Heads(lines, j, k)
    ensures forall k :: 0 <= k < |r| && r[k].line == 0 ==>
      forall j :: 0 < j < |lines| ==> !Heads(lines, j, k)
  {
    var hs := HeadsOf(lines);
    assert forall j: nat, k: nat :: j < |lines| ==> Heads(lines, j, k) == (hs[j] == Some(k));
    Table(hs)
  }

  /** Extending the lookups by one position moves entry `k` there exactly when
      that position opens section `k`. */
  lemma {:induction false} LastHeadSnoc(hs: seq<Option<nat>>, h: Option<nat>, k: nat)
    ensures LastHead(hs + [h], k) == if h == Some(k) then |hs| else LastHead(hs, k)
  {
    assert (hs + [h])[..|hs|] == hs;
  }

  /** Reading one more line overwrites at most the entry of the section it
      opens, with that line's position. */
  lemma {:induction false} TableSnoc(hs: seq<Option<nat>>, h: Option<nat>)
    requires h.Some? ==> h.value < |Sections|
    ensures Table(hs + [h]) == if h.Some? then Table(hs)[h.value := Entry(|hs|, 0)] else Table(hs)
  {
    forall k | 0 <= k < |Sections|
      ensures Table(hs + [h])[k] == (if h.Some? then Table(hs)[h.value := Entry(|hs|, 0)] else Table(hs))[k]
    {
      LastHeadSnoc(hs, h, k);
    }
  }

  /** The locator's loop, statement by statement: every line is tokenized,
      the first keyword test that matches sets the line counter into that
      section's entry, and the counter advances on every line. */
  method ParseLid(lines: seq<string>) returns (table: seq<Entry>)
    ensures table == Locate(lines)
  {
    table := [Entry(0, 0), Entry(0, 0), Entry(0, 0), Entry(0, 0), Entry(0, 0), Entry(0, 0)];
    ghost var hs := HeadsOf(lines);
    assert table == Table(hs[..0]);
    var counter := 0;
    while counter < |lines|
      invariant 0 <= counter <= |lines|
      invariant table == Table(hs[..counter])
    {
      var tokens := Split(lines[counter]);
      var head := KeywordOf(tokens);
      TableSnoc(hs[..counter], hs[counter]);
      PrefixSnoc(hs, counter);
      if head.Some? {
        var k := head.value;
        table := table[k := table[k].(line := counter)];
      }
      counter := counter + 1;
    }
    assert hs[..counter] == hs;
  }

  /** Each line sets at most one entry, so two sections never share a
      non-zero offset. */
  lemma {:induction false} LocateEntriesDistinct(lines: seq<string>, a: nat, b: nat)
    requires a < |Sections| && b < |Sections| && a != b
    requires Locate(lines)[a].line != 0
    ensures Locate(lines)[a].line != Locate(lines)[b].line
  {
  }

  /** Position `j` holds the last occurrence of its keyword. */
  predicate LastOccurrence(hs: seq<Option<nat>>, j: nat)
    requires j < |hs|
  {
    && hs[j].Some?
    && forall j' :: j < j' < |hs| ==> hs[j'] != hs[j]
  }

  /** Line `j` is the last line of the file that opens its section. */
  predicate IsLastHead(lines: seq<string>, j: nat)
    requires j < |lines|
  {
    LastOccurrence(HeadsOf(lines), j)
  }

  /** The non-zero offsets of the table are exactly the positions after 0
      that hold the last occurrence of their keyword. */
  lemma {:induction false} TableRecordsLastOccurrences(hs: seq<Option<nat>>, j: nat)
    requires forall i :: 0 <= i < |hs| && hs[i].Some? ==> hs[i].value < |Sections|
    requires 0 < j < |hs|
    ensures LastOccurrence(hs, j) <==> exists k :: 0 <= k < |Sections| && Table(hs)[k].line == j
    ensures LastOccurrence(hs, j) ==> Table(hs)[hs[j].value].line == j
  {
    if LastOccurrence(hs, j) {
      var k := hs[j].value;
      assert hs[j] == Some(k);
      assert LastHead(hs, k) == j;
      assert Table(hs)[k].line == j;
    }
    forall k | 0 <= k < |Sections| && Table(hs)[k].line == j
      ensures LastOccurrence(hs, j)
    {
      assert hs[j] == Some(k);
    }
  }

  /** The same statement about the lines of a file. */
  lemma {:induction false} RecordedIffLastHead(lines: seq<string>, j: nat)
    requires 0 < j < |lines|
    ensures IsLastHead(lines, j) <==> exists k :: 0 <= k < |Sections| && Locate(lines)[k].line == j
  {
    assert Locate(lines) == Table(HeadsOf(lines));
    TableRecordsLastOccurrences(HeadsOf(lines), j);
  }
}

=== FILE: tokens.dfy ===
/** Python's `str.split()` with no argument: the tokenizer every part of the
    parser applies to each line. */
module Tokens {

  /** The characters `str.split()` treats as separators (Python's whitespace:
      the ASCII controls 9-13 and 28-31, space, NEL, no-break space and the
      Unicode space separators). */
  predicate IsSpace(c: char) {
    var n := c as int;
    || (0x09 <= n <= 0x0D)
    || (0x1C <= n <= 0x20)
    || n == 0x85 || n == 0xA0 || n == 0x1680
    || (0x2000 <= n <= 0x200A)
    || n == 0x2028 || n == 0x2029 || n == 0x202F || n == 0x205F || n == 0x3000
  }

  /** A token: non-empty and free of whitespace. */
  predicate IsWord(w: string) {
    |w| > 0 && forall i :: 0 <= i < |w| ==> !IsSpace(w[i])
  }

  predicate AllSpace(s: string) {
    forall i :: 0 <= i < |s| ==> IsSpace(s[i])
  }

  /** The length of the whitespace-free run that starts `s`. */
  function WordRun(s: string): (k: nat)
    ensures k <= |s|
    ensures forall i :: 0 <= i < k ==> !IsSpace(s[i])
    ensures k == |s| || IsSpace(s[k])
  {
    if s == [] || IsSpace(s[0]) then 0 else 1 + WordRun(s[1..])
  }

  /** `s.split()`: the maximal runs of non-whitespace characters, in order. */
  function Split(s: string): (r: seq<string>)
    decreases |s|
  {
    if s == [] then []
    else if IsSpace(s[0]) then Split(s[1..])
    else
      var k := WordRun(s);
      [s[..k]] + Split(s[k..])
  }

  /** Every token is a non-empty run of non-whitespace characters. */
  lemma {:induction false} SplitGivesWords(s: string)
    ensures forall i :: 0 <= i < |Split(s)| ==> IsWord(Split(s)[i])
    decreases |s|
  {
    if s != [] {
      if IsSpace(s[0]) {
        SplitGivesWords(s[1..]);
      } else {
        var k := WordRun(s);
        SplitGivesWords(s[k..]);
        assert Split(s) == [s[..k]] + Split(s[k..]);
      }
    }
  }

  /** A word run does not reach past a whitespace character or the end. */
  lemma {:induction false} WordRunStops(a: string, b: string)
    requires b == [] || IsSpace(b[0])
    ensures WordRun(a + b) == WordRun(a)
  {
    if a == [] {
      assert a + b == b;
    } else if !IsSpace(a[0]) {
      assert (a + b)[0] == a[0];
      assert (a + b)[1..] == a[1..] + b;
      WordRunStops(a[1..], b);
    }
  }

  /** One step of `Split` on a line that starts with whitespace. */
  lemma {:induction false} SplitSpaceStep(s: string)
    requires |s| > 0 && IsSpace(s[0])
    ensures Split(s) == Split(s[1..])
  {
  }

  /** One step of `Split` on a line that starts with a word of length `k`. */
  lemma {:induction false} SplitWordStep(s: string, k: nat)
    requires |s| > 0 && !IsSpace(s[0]) && k == WordRun(s)
    ensures Split(s) == [s[..k]] + Split(s[k..])
  {
  }

  /** Cutting `a + b` inside `a`. */
  lemma {:induction false} CutInFirst(a: string, b: string, k: nat)
    requires k <= |a|
    ensures (a + b)[..k] == a[..k]
    ensures (a + b)[k..] == a[k..] + b
  {
  }

  /** Putting one more element in front of a concatenation. */
  lemma {:induction false} ConsAppend<T>(x: T, u: seq<T>, v: seq<T>)
    ensures [x] + (u + v) == ([x] + u) + v
  {
  }

  /** The step of `SplitAtSpace` past a leading whitespace character. */
  lemma {:induction false} SpaceThenSplit(a: string, b: string)
    requires |a| > 0 && IsSpace(a[0])
    requires Split(a[1..] + b) == Split(a[1..]) + Split(b)
    ensures Split(a + b) == Split(a) + Split(b)
  {
    var s := a + b;
    assert s[0] == a[0];
    CutInFirst(a, b, 1);
    SplitSpaceStep(s);
    SplitSpaceStep(a);
  }

  /** The step of `SplitAtSpace` past a leading word. */
  lemma {:induction false} WordThenSplit(a: string, b: string)
    requires |a| > 0 && !IsSpace(a[0]) && |b| > 0 && IsSpace(b[0])
    requires Split(a[WordRun(a)..] + b) == Split(a[WordRun(a)..]) + Split(b)
    ensures Split(a + b) == Split(a) + Split(b)
  {
    var s := a + b;
    var k := WordRun(a);
    WordRunStops(a, b);
    assert s[0] == a[0];
    CutInFirst(a, b, k);
    SplitWordStep(s, k);
    SplitWordStep(a, k);
    ConsAppend(a[..k], Split(a[k..]), Split(b));
  }

  /** A whitespace character separates tokens: splitting a line at one gives
      the tokens of the part before it followed by those of the rest. */
  lemma {:induction false} SplitAtSpace(a: string, b: string)
    requires |b| > 0 && IsSpace(b[0])
    ensures Split(a + b) == Split(a) + Split(b)
    decreases |a|
  {
    if |a| == 0 {
      assert a + b == b;
    } else if IsSpace(a[0]) {
      SplitAtSpace(a[1..], b);
      SpaceThenSplit(a, b);
    } else {
      SplitAtSpace(a[WordRun(a)..], b);
      WordThenSplit(a, b);
    }
  }

  /** A line tokenizes to nothing exactly when it is blank. */
  lemma {:induction false} SplitBlank(s: string)
    ensures Split(s) == [] <==> AllSpace(s)
  {
    if s != [] && IsSpace(s[0]) {
      SplitBlank(s[1..]);
      assert forall i :: 1 <= i < |s| ==> s[i] == s[1..][i - 1];
    }
  }

  /** `" ".join(ws)`. */
  function Join(ws: seq<string>): string {
    if |ws| == 0 then ""
    else if |ws| == 1 then ws[0]
    else ws[0] + " " + Join(ws[1..])
  }

  /** The characters of all tokens, concatenated. */
  function Concat(ws: seq<string>): string {
    if ws == [] then "" else ws[0] + Concat(ws[1..])
  }

  /** `s` with every whitespace character deleted. */
  function NonSpace(s: string): string {
    if s == [] then ""
    else if IsSpace(s[0]) then NonSpace(s[1..])
    else [s[0]] + NonSpace(s[1..])
  }

  lemma {:induction false} NonSpaceAppend(a: string, b: string)
    ensures NonSpace(a + b) == NonSpace(a) + NonSpace(b)
  {
    if a == [] {
      assert a + b == b;
    } else {
      assert (a + b)[1..] == a[1..] + b;
      NonSpaceAppend(a[1..], b);
    }
  }

  lemma {:induction false} NonSpaceOfWord(w: string)
    requires forall i :: 0 <= i < |w| ==> !IsSpace(w[i])
    ensures NonSpace(w) == w
  {
    if w != [] {
      NonSpaceOfWord(w[1..]);
      assert w == [w[0]] + w[1..];
    }
  }

  /** Splitting loses nothing but whitespace: the tokens, concatenated, are the
      non-whitespace characters of the line in their original order. */
  lemma {:induction false} SplitKeepsText(s: string)
    ensures Concat(Split(s)) == NonSpace(s)
    decreases |s|
  {
    if s != [] {
      if IsSpace(s[0]) {
        SplitKeepsText(s[1..]);
      } else {
        var k := WordRun(s);
        assert s == s[..k] + s[k..];
        NonSpaceAppend(s[..k], s[k..]);
        NonSpaceOfWord(s[..k]);
        SplitKeepsText(s[k..]);
      }
    }
  }

  lemma {:induction false} WordRunOfWord(w: string, tail: string)
    requires forall i :: 0 <= i < |w| ==> !IsSpace(w[i])
    requires tail == [] || IsSpace(tail[0])
    ensures WordRun(w + tail) == |w|
  {
    if w != [] {
      assert (w + tail)[1..] == w[1..] + tail;
      WordRunOfWord(w[1..], tail);
    } else {
      assert w + tail == tail;
    }
  }

  /** Splitting undoes `" ".join` for any list of tokens. */
  lemma {:induction false} SplitJoin(ws: seq<string>)
    requires forall i :: 0 <= i < |ws| ==> IsWord(ws[i])
    ensures Split(Join(ws)) == ws
  {
    if |ws| > 0 {
      var w := ws[0];
      var tail := if |ws| == 1 then "" else " " + Join(ws[1..]);
      var s := Join(ws);
      assert s == w + tail;
      WordRunOfWord(w, tail);
      assert s[..|w|] == w;
      assert s[|w|..] == tail;
      if |ws| > 1 {
        assert tail[1..] == Join(ws[1..]);
        SplitJoin(ws[1..]);
        assert ws == [w] + ws[1..];
      }
    }
  }
}

=== FILE: wrappers.dfy ===
/** Optional values and results with an error, as used throughout the model. */
module Wrappers {

  /** A value that may be missing. */
  datatype Option<+T> = None | Some(value: T)

  /** Either a value or the error that a Python exception would have carried. */
  datatype Result<+T, +E> = Success(value: T) | Failure(error: E)
}
